=== FILE: README.md ===
# Night-sky chat relay: a Dafny model of its two handlers

The repository is a serverless chat relay. A browser posts a message. The
handler forwards it to a hosted text-generation model, and returns the
generated text as `{ reply }`. The newer revision wraps the message in a
prompt first, and the older one sends the message itself. There are two revisions of the
handler. The network calls are the only part that cannot be modelled. Between
them sits a small, pure decision layer, and this project models it as total
functions:

- `api/chat.js` (module `ApiChat`) is the fuller revision. It handles a
  `GET ?ping=1` health check, then `405`, then `400` for a falsy message, then
  `500` for a missing token. It makes one upstream call, plus a single retry
  after a `503` or `429`. Failures are reported as `HF_API_ERROR` (non-2xx
  status), `HF_API_PARSE_ERROR` (body is not JSON) or `SERVER_ERROR` (a
  rejected call, or a `generated_text` that is truthy but not a string). A reply decoder tries the
  response shapes in priority order and substitutes a fixed fallback for an
  empty reply.
- `chat.js` (module `LegacyChat`) is the older revision. It accepts only
  `POST` and rejects a blank message. It never looks at the upstream status.
  It reads `[0].generated_text || .generated_text || fallback`, strips a
  speaker label ending in the fullwidth colon `：`, and trims. Every thrown
  error becomes one fixed `500` message.

Shared modules:

- `Json`: parsed JSON values, JavaScript truthiness, property reads, `String(v)`
  and `JSON.stringify`.
- `JsString`: `String.prototype.trim`, using the exact ECMAScript whitespace and
  line-terminator set, and the regular-expression strip `^.*?：`.
- `Http`: requests, environment, upstream calls and replies, responses.
- `Retry`: a bounded retry policy. The `api/chat.js` retry is proved to be this
  policy with a budget of two calls.

Each handler is `Handle(req, env, replies)`. The environment (`HF_TOKEN`,
`HF_MODEL`) is a parameter. The upstream is a list of replies: call number `k`
receives `replies[k]`. Each reply is either an answer or a rejected `fetch`. An
answer carries a status, the raw body text, and the result of `JSON.parse` on
that text as an `Option` (`None` when parsing throws). The outcome is the
response plus the list of upstream calls made. The list records the model, the
`Authorization` header and the `inputs` text of each call.

Three behaviours of the code are worth noting:

- `api/chat.js` has no step for an OpenAI-style `choices[0].message.content`
  body. Such a body is serialised whole (`ApiChat.ExtractSerialises`).
- Only `api/chat.js` never answers 200 with an empty reply. `chat.js` can
  (`LegacyChat.EmptyReplyPossible`).
- `chat.js` has no token check. An unset token is sent as `Bearer undefined`.

A fourth follows from where the prompt is built. In `api/chat.js` the
template literal `${message}` sits before the `try`. A message object with its
own `toString` member makes that conversion throw. The throw escapes the
handler, which then sends no response of its own (`ApiChat.UnprintableMessageThrows`).

## Model

| member | source | states |
|---|---|---|
| Json.Lookup | api/chat.js:86 | a member read finds a value exactly when some member has that key, and the value is that of the last member with the key (the duplicate-key rule of JSON.parse) |
| Json.Stringify | api/chat.js:89 | serialising a parsed value never gives the empty string |
| JsString.Trim | api/chat.js:83-87 | trim keeps a middle part of the text that starts and ends with a non-whitespace character, between an all-whitespace prefix and an all-whitespace suffix |
| JsString.TrimEmptyIffBlank | api/chat.js:92 | trim gives the empty string exactly when every character is whitespace or a line terminator |
| JsString.TrimUnique | api/chat.js:83 | any split into whitespace prefix, trimmed middle and whitespace suffix yields that middle, so trim is fully determined |
| JsString.TrimIdempotent | chat.js:36 | trimming an already trimmed text changes nothing |
| JsString.SpeakerPrefixLength | chat.js:36 | the lazy pattern `^.*?：` matches exactly when a colon comes before any line terminator, and it picks the shortest such prefix |
| JsString.StripSpeaker | chat.js:36 | without a match the text is unchanged; otherwise exactly the shortest matched prefix is removed |
| JsString.NoColonNoStrip | chat.js:34-36 | a text without the fullwidth colon passes through the strip unchanged |
| Retry.RunPolicy | api/chat.js:56-62 | a bounded retry makes between one call and the budget; every reply before the last asked for a retry; the policy stops early only at a reply that does not |
| Retry.RunPolicyUnique | api/chat.js:56-62 | any call count meeting that stopping rule is the one the policy makes |
| ApiChat.ModelName | api/chat.js:2 | a set, non-empty `HF_MODEL` is used; otherwise the default model |
| ApiChat.UserTurn | api/chat.js:29 | a user turn read back from a prompt is framed by the persona with the user label, and the assistant label |
| ApiChat.PromptRoundTrip | api/chat.js:27-29 | any text framed by `用户：` and `\n夜空AI：` is read back verbatim, even when it contains the labels |
| ApiChat.Relay | api/chat.js:56-62 | the call-once-and-retry-on-503/429 code is the general bounded retry policy with a budget of two calls |
| ApiChat.Finish | api/chat.js:64-96 | the final reply gives 200 or 500; a 200 always has a non-empty reply; `HF_API_ERROR` is given exactly when the final status is not 2xx |
| ApiChat.RejectedIsServerError | api/chat.js:94-96 | a rejected call gives 500 `SERVER_ERROR` with the error message, or its string form when the message is empty |
| ApiChat.OkReplyIsExtracted | api/chat.js:80-93 | a 2xx reply that decodes gives 200 with the decoded text, or the fallback when that text is empty |
| ApiChat.Handle | api/chat.js:4-98 | at most two upstream calls; the handler throws, with no response and no call, exactly for a valid POST whose message is not printable; otherwise the status is 200/400/405/500 and every reply is non-empty |
| ApiChat.HealthCheck | api/chat.js:6-14 | the health payload is given exactly to `GET ?ping=1`, with status 200, token presence, the model, and no upstream call |
| ApiChat.MethodNotAllowed | api/chat.js:16-18 | 405 is given exactly to non-POST requests other than the health check, including a GET with a different ping; no upstream call is made |
| ApiChat.MissingMessage | api/chat.js:20-21 | 400 is given exactly to a POST with a falsy message, whether or not the token is set; no upstream call is made |
| ApiChat.MissingToken | api/chat.js:23-24 | the missing-token 500 is given exactly to a POST with a truthy message and no token; no upstream call is made |
| ApiChat.RetryRule | api/chat.js:55-62 | a call is made exactly for a POST with a truthy, printable message and a token. Such a request makes one or two calls, the second exactly after a 503 or 429. Every call carries the token and the prompt, and the response depends on the last reply alone |
| ApiChat.UnusedRepliesIgnored | api/chat.js:56-62 | replies beyond the calls actually made do not affect the outcome |
| ApiChat.UpstreamErrorVerbatim | api/chat.js:64-70 | a non-2xx final status gives 500 `HF_API_ERROR` with that status and the raw text, whatever the body parses to |
| ApiChat.ParseErrorRaw | api/chat.js:72-78 | a 2xx status with a non-JSON body gives 500 `HF_API_PARSE_ERROR` with the raw text |
| ApiChat.ExtractArrayFirst | api/chat.js:82-83 | an array whose first element has a non-empty string `generated_text` yields that text trimmed |
| ApiChat.ExtractBareString | api/chat.js:84-85 | a bare string yields itself trimmed |
| ApiChat.ExtractObject | api/chat.js:86-87 | an object with a non-empty string `generated_text` yields that text trimmed |
| ApiChat.ExtractSerialises | api/chat.js:88-90 | the body is serialised exactly when its shape is unrecognised |
| ApiChat.NonStringGeneratedTextThrows | api/chat.js:82-96 | a truthy non-string `generated_text` gives 500 `SERVER_ERROR`, in the first object of any array and in an object |
| ApiChat.BlankTextBecomesFallback | api/chat.js:81-93 | an empty or whitespace-only text gives 200 with the fixed fallback, as a bare string, as the `generated_text` of any first array object, or as the `generated_text` of any object |
| ApiChat.OkReplyShape | api/chat.js:81-93 | a 200 reply is the fallback, the serialised body, or a non-empty trimmed text |
| LegacyChat.Validate | chat.js:7-10 | an accepted message is the body's string `message` and has a non-whitespace character |
| LegacyChat.ReplySource | chat.js:31-34 | the chosen reply source is always truthy |
| LegacyChat.Clean | chat.js:36 | the cleaned reply starts and ends with a non-whitespace character, or is empty |
| LegacyChat.Finish | chat.js:29-42 | the one reply gives 200 or 500; a 500 always carries the fixed message; a 200 reply is trimmed |
| LegacyChat.LegacyOkReply | chat.js:29-37 | whatever the status, a parsed reply whose reply source is a string gives 200 with that string cleaned |
| LegacyChat.Handle | chat.js:1-44 | the handler always answers itself; at most one upstream call, made exactly for a POST whose message is accepted |
| LegacyChat.OnlyPost | chat.js:2-4 | 405 is given exactly to non-POST methods, including GET with a ping; no upstream call is made |
| LegacyChat.BlankMessageRejected | chat.js:7-10 | 400 is given exactly to a POST with a body whose message is missing, empty or whitespace only |
| LegacyChat.MessageForwarded | chat.js:14-25 | an accepted message is sent upstream unchanged as the model input, in one call |
| LegacyChat.CleanKeepsPlainText | chat.js:36 | a trimmed text without the colon is unchanged by cleaning |
| LegacyChat.FallbackSurvivesClean | chat.js:34-36 | the fallback is unchanged by the strip and the trim |
| LegacyChat.StatusIgnored | chat.js:14-34 | replies that differ only in status and raw text give the same outcome |
| LegacyChat.ErrorObjectGivesFallback | chat.js:29-37 | an upstream object without a truthy `generated_text` (an error body, say) gives 200 with the fallback reply |
| LegacyChat.EmptyReplyPossible | chat.js:36-37 | a `generated_text` of `夜空AI：` gives 200 with an empty reply |
| LegacyChat.FailuresAreOpaque | chat.js:38-42 | 500 is given exactly for a thrown error and always carries the fixed message. The causes: a missing or null body, a non-string message, a rejected call, a non-JSON body, a non-string reply |
| LegacyChat.ThrowingBodies | chat.js:7-8 | validation throws exactly for a missing or null body, or a truthy non-string message |
| LegacyChat.WhitespaceMessageContrast | chat.js:8-10 | any non-empty, whitespace-only string message gets 400 here but is forwarded upstream by the newer handler |
| Json.Truthy | chat.js:31-34 | `undefined`, `null`, `false`, `0` and the empty string are falsy; every other value, including `"0"`, `[]` and `{}`, is truthy |
| Json.ToDisplayString | api/chat.js:29 | `String(v)` succeeds exactly when no object in `v`, at the top or inside arrays, has its own `toString` member; otherwise it throws the to-primitive TypeError; a string is inserted as itself |
| Http.MessageOf | api/chat.js:20 | only an object body has a message; for an object body it is the last `message` member |
| Http.IsOk | api/chat.js:64 | `resp.ok` holds exactly for a status in the success class 2xx |
| Http.ErrorText | api/chat.js:96 | the error text is the message when it is non-empty, otherwise the string form, and empty only when both are |
| ApiChat.IsTransient | api/chat.js:59 | the retried statuses are exactly 429 and 503, and neither is a success, so a retry always follows a failed call |
| ApiChat.Prompt | api/chat.js:29 | the prompt is built exactly when the message is printable, and the user turn read back from it is the message text; otherwise it throws the to-primitive TypeError |
| ApiChat.Extract | api/chat.js:81-90 | an unrecognised shape (null, boolean, number, empty array, array whose first item lacks a truthy `generated_text`, object with a falsy `generated_text`) is serialised whole; any other shape yields a trimmed text strictly shorter than the serialisation, or throws; only arrays and objects throw |
| ApiChat.FalsyGeneratedTextFallsThrough | api/chat.js:82-90 | for any array whose first object has a falsy `generated_text` (empty, null, false, 0 or absent), the whole array is serialised |
| ApiChat.UnprintableMessageThrows | api/chat.js:29 | a POST that passes the checks throws before any call exactly when its message has an object with its own `toString` |
| ApiChat.IsPing | api/chat.js:6 | the health check is a GET whose `ping` is exactly the string "1" |
| ApiChat.TokenPresent | api/chat.js:11 | the token counts as present when it is set and non-empty (`!!process.env.HF_TOKEN`) |
| LegacyChat.ReplyFromArray | chat.js:31-32 | any array whose first item is an object with a truthy `generated_text` replies with that value |
| LegacyChat.ReplyFromObject | chat.js:31-33 | an object member "0" with a truthy `generated_text` wins whatever the object's own `generated_text` is, falsy included; without one, an object replies with its own truthy `generated_text` |
| LegacyChat.ReplyFallbackShapes | chat.js:31-34 | null, booleans, numbers, strings, an empty array, and an array whose first item is not an object with a truthy `generated_text` all reply with the fallback |

## Left out

- `fetch` and the network: replaced by the supplied reply list. Both handlers require enough replies for the calls they may make: two for `api/chat.js`, one for `chat.js`.
- The 1500 ms `setTimeout` backoff before the retry: it has no effect on the outcome, so it is a no-op.
- `JSON.parse`: supplied with each reply as an `Option`. Whether that value agrees with the raw text is not checked.
- The endpoint URL and `encodeURIComponent`: each call records the model name instead.
- The generation parameters (`max_new_tokens`, `temperature`, `top_p`, `return_full_text`) and the options (`wait_for_model`, `use_cache`): constant payload fields, some floating point, with no behaviour of their own.
- `console` logging: it has no effect on the response.
- `night-ai-chat/api/chat.js`: it wraps an OpenAI SDK client whose behaviour is not visible. Its only local logic is one `choices[0].message.content || fallback` expression.
- JSON numbers are integers here. Fractions are not modelled. The decimal text used in the prompt and in the serialised reply matches JavaScript only below 2^53. JavaScript rounds larger integers and writes 1e21 and above in exponent form.
- A repeated `ping` query parameter arrives as an array. It is covered only in that it is not the string `"1"`.
- The exact V8 wording of a `TypeError` message is not reproduced. Each throw site gets a descriptive constant.
- Strings are sequences of Unicode scalar values, not UTF-16 code units. Lone surrogates therefore cannot occur, and `"s"[0]` of an astral character is a whole character. Only its missing `generated_text` is ever used.
- Json.Stringify: its contract states only that the result is non-empty. Separate lemmas show it is longer than a string's text, any array item and any object member's value. Its body differs from `JSON.stringify` in member order. JavaScript lists integer-like keys first, in ascending order, while the model keeps the order of the text. An object with a duplicate key also prints every member, where `JSON.parse` would have kept one.
- When an exception escapes the `api/chat.js` handler, the hosting platform answers on its behalf. That answer is not modelled; the outcome records only that the handler threw.
- The hosting framework's `res.status().json()` is represented by the `Response` value, and `req.body` parsing by the body `Option`.

=== FILE: api_chat.dfy ===
/** The handler of `api/chat.js`: a health check, request validation, one
    inference call with a single retry on 503/429, and a reply decoder that
    accepts several response shapes and never answers 200 with an empty reply. */
module ApiChat {
  import opened Wrappers
  import opened Json
  import opened JsString
  import opened Http
  import opened Retry

  const DefaultModel: string := "TinyLlama/TinyLlama-1.1B-Chat-v1.0"
  const HealthRoute: string := "/api/chat"
  const HealthTip: string := "hfTokenPresent 为 true 表示 Vercel 环境变量 HF_TOKEN 已配置好。"
  const SystemPrompt: string := "你是夜空AI，一个温柔体贴的中文聊天伙伴。请用简短、安抚的语气回复，让用户感到被理解。"
  /** The prompt text before the user's message. */
  const PromptHead: string := SystemPrompt + "\n\n用户："
  /** The prompt text after the user's message. */
  const PromptTail: string := "\n夜空AI："
  const FallbackReply: string := "✨ 我听懂了，也许你需要一点时间放松。"

  const MethodNotAllowedError: string := "Method not allowed (GET 仅支持 ?ping=1)"
  const MissingMessageError: string := "Missing message"
  const MissingTokenError: string := "HF_TOKEN not found in environment"
  const UpstreamErrorCode: string := "HF_API_ERROR"
  const ParseErrorCode: string := "HF_API_PARSE_ERROR"
  const ServerErrorCode: string := "SERVER_ERROR"
  /** The TypeError messages of calling `trim` on a non-string `generated_text`. */
  const ArrayTrimError: string := "data[0].generated_text.trim is not a function"
  const ObjectTrimError: string := "(data.generated_text || \"\").trim is not a function"

  /** The most upstream calls one invocation makes. */
  const MaxCalls: nat := 2

  /** `process.env.HF_MODEL || DEFAULT`: an unset or empty override is ignored. */
  function ModelName(env: Env): (m: string)
    ensures m != ""
    ensures env.hfModel.Some? && env.hfModel.value != "" ==> m == env.hfModel.value
    ensures env.hfModel.None? || env.hfModel.value == "" ==> m == DefaultModel
  {
    match env.hfModel
    case Some(name) => if name != "" then name else DefaultModel
    case None => DefaultModel
  }

  /** `!!process.env.HF_TOKEN`: set and non-empty. */
  predicate TokenPresent(env: Env)
  {
    env.hfToken.Some? && env.hfToken.value != ""
  }

  /** The health-check request: `GET` with `ping` exactly "1". */
  predicate IsPing(req: Request)
  {
    req.httpMethod == "GET" && req.ping == Some("1")
  }

  /** The prompt sent upstream: the persona, then the message as a template
      literal inserts it, framed by the user and assistant labels. The
      conversion throws for a message that is not `Printable`. */
  function Prompt(message: Json): (r: Result<string, string>)
    ensures r.Success? <==> Printable(message)
    ensures r.Failure? ==> r.error == ToPrimitiveError
    ensures r.Success? ==> UserTurn(r.value) == Some(ToDisplayString(message).value)
  {
    match ToDisplayString(message)
    case Success(text) =>
      PromptRoundTrip(text);
      Success(PromptHead + text + PromptTail)
    case Failure(e) => Failure(e)
  }

  /** The user's turn read back out of a prompt; `None` when the text is not
      framed as `Prompt` frames it. */
  function UserTurn(prompt: string): (m: Option<string>)
    ensures m.Some? ==> prompt == PromptHead + m.value + PromptTail
  {
    if |prompt| >= |PromptHead| + |PromptTail|
       && prompt[..|PromptHead|] == PromptHead
       && prompt[|prompt| - |PromptTail|..] == PromptTail
    then
      var m := prompt[|PromptHead|..|prompt| - |PromptTail|];
      assert prompt == prompt[..|PromptHead|] + m + prompt[|prompt| - |PromptTail|..];
      Some(m)
    else None
  }

  /** Any text framed by the labels is read back verbatim, whatever it holds
      (the labels themselves included). */
  lemma PromptRoundTrip(text: string)
    ensures UserTurn(PromptHead + text + PromptTail) == Some(text)
  {
    var p := PromptHead + text + PromptTail;
    assert p[..|PromptHead|] == PromptHead;
    assert p[|p| - |PromptTail|..] == PromptTail;
    assert p[|PromptHead|..|p| - |PromptTail|] == text;
  }

  /** A status the handler retries once: 503 (model loading) or 429 (rate
      limited). Neither is a success, so a retry always follows a failed call. */
  function IsTransient(status: int): (t: bool)
    ensures t <==> status in {429, 503}
    ensures t ==> !IsOk(status)
  {
    status == 503 || status == 429
  }

  /** Lines 56-62: call once, and once more after a 503 or 429. The policy is
      the general bounded retry with a budget of two calls. */
  function Relay(replies: seq<UpstreamReply>): (a: Attempt)
    requires |replies| >= MaxCalls
    ensures a == RunPolicy(replies, MaxCalls, IsTransient)
  {
    var first := replies[0];
    if first.Answered? && (first.status == 503 || first.status == 429) then
      RunPolicyUnique(replies, MaxCalls, IsTransient, 2);
      Attempt(2, replies[1])
    else
      RunPolicyUnique(replies, MaxCalls, IsTransient, 1);
      Attempt(1, first)
  }

  /** The `generated_text` member of a value, if it has one. */
  function GeneratedText(v: Option<Json>): Option<Json>
  {
    Prop(v, "generated_text")
  }

  /** The shapes the decoder does not read text from: null, booleans, numbers,
      an empty array, an array whose first item is not an object with a truthy
      `generated_text`, and an object whose `generated_text` is falsy. */
  predicate Unrecognised(data: Json)
  {
    match data
    case JNull => true
    case JBool(_) => true
    case JNumber(_) => true
    case JString(_) => false
    case JArray(items) =>
      |items| == 0 || !(items[0].JObject? && Truthy(Lookup(items[0].members, "generated_text")))
    case JObject(members) => !Truthy(Lookup(members, "generated_text"))
  }

  /** Lines 81-90: the reply text of a parsed upstream body, by shape in
      priority order; `Failure` is the TypeError of trimming a non-string.
      An unrecognised shape is serialised whole; every other shape yields a
      trimmed text taken from inside the body, so shorter than its
      serialisation; only arrays and objects can throw. */
  function Extract(data: Json): (r: Result<string, string>)
    ensures Unrecognised(data) ==> r == Success(Stringify(data))
    ensures !Unrecognised(data) && r.Success? ==> IsTrimmed(r.value) && |r.value| < |Stringify(data)|
    ensures r.Failure? ==> (data.JArray? || data.JObject?) && !Unrecognised(data)
  {
    var first := GeneratedText(Index0(Some(data)));
    var own := GeneratedText(Some(data));
    if data.JArray? && Truthy(first) then
      (match first.value
       case JString(s) =>
         StringifyStringLonger(s);
         StringifyObjectLonger(data.items[0].members, "generated_text", JString(s));
         StringifyArrayLonger(data.items, 0);
         Success(Trim(s))
       case _ => Failure(ArrayTrimError))
    else if data.JString? then
      StringifyStringLonger(data.s);
      Success(Trim(data.s))
    else if Truthy(own) then
      (match own.value
       case JString(s) =>
         StringifyStringLonger(s);
         StringifyObjectLonger(data.members, "generated_text", JString(s));
         Success(Trim(s))
       case _ => Failure(ObjectTrimError))
    else
      Success(Stringify(data))
  }

  /** Lines 64-96: the response for the reply to the last upstream call. */
  function Finish(reply: UpstreamReply): (r: Response)
    ensures r.status == 200 || r.status == 500
    ensures r.status == 200 <==> r.payload.ReplyBody?
    ensures r.status == 200 ==> r.payload.reply != ""
    ensures r.payload.UpstreamFailure? <==> reply.Answered? && !IsOk(reply.status)
  {
    match reply
    case Rejected(message, asString) =>
      Response(500, ServerFailure(ServerErrorCode, ErrorText(message, asString)))
    case Answered(status, text, parsed) =>
      if !IsOk(status) then
        Response(500, UpstreamFailure(UpstreamErrorCode, status, text))
      else if parsed.None? then
        Response(500, ParseFailure(ParseErrorCode, text))
      else
        match Extract(parsed.value)
        case Failure(message) => Response(500, ServerFailure(ServerErrorCode, message))
        case Success(text) => Response(200, ReplyBody(if text == "" then FallbackReply else text))
  }

  /** A rejected fetch or body read reaches the catch-all: 500 `SERVER_ERROR`
      with the error's message, or its string form when the message is empty. */
  lemma RejectedIsServerError(message: string, asString: string)
    ensures Finish(Rejected(message, asString))
            == Response(500, ServerFailure(ServerErrorCode, ErrorText(message, asString)))
  {}

  /** A 2xx reply whose body decodes answers 200 with the decoded text, or
      with the fallback when that text is empty. */
  lemma OkReplyIsExtracted(status: int, text: string, data: Json, t: string)
    requires IsOk(status) && Extract(data) == Success(t)
    ensures Finish(Answered(status, text, Some(data)))
            == Response(200, ReplyBody(if t == "" then FallbackReply else t))
  {}

  /** A POST with a truthy message while the token is configured: the
      request gets past validation and builds its prompt (line 29, before the
      `try`). */
  predicate PassesChecks(req: Request, env: Env)
  {
    req.httpMethod == "POST" && Truthy(MessageOf(req.body)) && TokenPresent(env)
  }

  /** The request reaches the upstream model: it passes the checks and its
      message can be written into the prompt. */
  predicate Relays(req: Request, env: Env)
  {
    PassesChecks(req, env) && Printable(MessageOf(req.body).value)
  }

  /** The whole handler. `replies[k]` answers upstream call number `k`. */
  function Handle(req: Request, env: Env, replies: seq<UpstreamReply>): (o: Outcome)
    requires |replies| >= MaxCalls
    ensures |o.calls| <= MaxCalls
    ensures o.Threw? <==> PassesChecks(req, env) && !Printable(MessageOf(req.body).value)
    ensures o.Threw? ==> o.calls == [] && o.error == ToPrimitiveError
    ensures o.Responded? ==> o.response.status in {200, 400, 405, 500}
    ensures o.Responded? && o.response.payload.ReplyBody? ==>
              o.response.status == 200 && o.response.payload.reply != ""
  {
    if IsPing(req) then
      Responded(Response(200, Health(true, HealthRoute, ModelName(env), TokenPresent(env), HealthTip)), [])
    else if req.httpMethod != "POST" then
      Responded(Response(405, ErrorOnly(MethodNotAllowedError)), [])
    else if !Truthy(MessageOf(req.body)) then
      Responded(Response(400, ErrorOnly(MissingMessageError)), [])
    else if !TokenPresent(env) then
      Responded(Response(500, ErrorOnly(MissingTokenError)), [])
    else
      match Prompt(MessageOf(req.body).value)
      case Failure(e) => Threw(e, [])
      case Success(prompt) =>
        var call := UpstreamCall(ModelName(env), "Bearer " + env.hfToken.value, prompt);
        var a := Relay(replies);
        Responded(Finish(a.last), seq(a.calls, _ => call))
  }

  // ---------------------------------------------------------------------------
  // Dispatch

  /** A GET with `ping` "1" is answered by the health payload, which reports
      whether the token is configured and makes no upstream call; nothing
      else gets that payload. */
  lemma HealthCheck(req: Request, env: Env, replies: seq<UpstreamReply>)
    requires |replies| >= MaxCalls
    ensures var o := Handle(req, env, replies);
            && (o.Responded? && o.response.payload.Health? <==> IsPing(req))
            && (IsPing(req) ==> HasStatus(o, 200) && o.calls == []
                                && o.response.payload.hfTokenPresent == TokenPresent(env)
                                && o.response.payload.model == ModelName(env))
  {}

  /** 405 is the answer exactly to a non-POST request that is not the health
      check, including a GET with any other `ping`; it makes no upstream call. */
  lemma MethodNotAllowed(req: Request, env: Env, replies: seq<UpstreamReply>)
    requires |replies| >= MaxCalls
    ensures var o := Handle(req, env, replies);
            && (HasStatus(o, 405) <==> !IsPing(req) && req.httpMethod != "POST")
            && (HasStatus(o, 405) ==> o.calls == [])
  {}

  /** 400 is the answer exactly to a POST whose message is falsy, whether or
      not the token is configured: the message is checked first. */
  lemma MissingMessage(req: Request, env: Env, replies: seq<UpstreamReply>)
    requires |replies| >= MaxCalls
    ensures var o := Handle(req, env, replies);
            && (HasStatus(o, 400) <==> req.httpMethod == "POST" && !Truthy(MessageOf(req.body)))
            && (HasStatus(o, 400) ==> o.calls == [])
  {}

  /** The missing-token error is the answer exactly to a POST with a truthy
      message and no token. */
  lemma MissingToken(req: Request, env: Env, replies: seq<UpstreamReply>)
    requires |replies| >= MaxCalls
    ensures var o := Handle(req, env, replies);
            && (o.Responded? && o.response.payload == ErrorOnly(MissingTokenError) <==>
                  req.httpMethod == "POST" && Truthy(MessageOf(req.body)) && !TokenPresent(env))
            && (o.Responded? && o.response.payload == ErrorOnly(MissingTokenError) ==>
                  HasStatus(o, 500) && o.calls == [])
  {}

  /** A message object with its own `toString` member, at the top or inside an
      array, makes the prompt's template literal throw before the `try`: the
      handler sends no response of its own and calls nothing upstream. */
  lemma UnprintableMessageThrows(req: Request, env: Env, replies: seq<UpstreamReply>)
    requires |replies| >= MaxCalls
    requires PassesChecks(req, env)
    ensures Handle(req, env, replies) == Threw(ToPrimitiveError, [])
            <==> !Printable(MessageOf(req.body).value)
  {}

  // ---------------------------------------------------------------------------
  // Retry

  /** A relayed request makes one or two calls, each carrying the token and the
      prompt; the second exactly when the first was answered 503 or 429; the
      response is decided by the reply to the last call alone. */
  lemma RetryRule(req: Request, env: Env, replies: seq<UpstreamReply>)
    requires |replies| >= MaxCalls
    ensures var o := Handle(req, env, replies);
            && (|o.calls| > 0 <==> Relays(req, env))
            && (Relays(req, env) ==>
                  && o.Responded?
                  && 1 <= |o.calls| <= 2
                  && (|o.calls| == 2 <==> replies[0].Answered? && IsTransient(replies[0].status))
                  && o.response == Finish(replies[|o.calls| - 1])
                  && forall k :: 0 <= k < |o.calls| ==>
                       o.calls[k] == UpstreamCall(ModelName(env), "Bearer " + env.hfToken.value,
                                                  Prompt(MessageOf(req.body).value).value))
  {}

  /** Replies beyond the calls actually made change nothing. */
  lemma UnusedRepliesIgnored(req: Request, env: Env, replies: seq<UpstreamReply>, others: seq<UpstreamReply>)
    requires |replies| >= MaxCalls && |others| >= MaxCalls
    requires var n := |Handle(req, env, replies).calls|; replies[..n] == others[..n]
    ensures Handle(req, env, others) == Handle(req, env, replies)
  {
    var n := |Handle(req, env, replies).calls|;
    if Relays(req, env) {
      assert replies[0] == replies[..n][0] == others[..n][0] == others[0];
      if n == 2 {
        assert replies[1] == replies[..n][1] == others[..n][1] == others[1];
      }
    }
  }

  // ---------------------------------------------------------------------------
  // Status and parse errors

  /** A non-2xx final status is reported with that status and the raw body
      text verbatim, whatever the body would parse to. */
  lemma UpstreamErrorVerbatim(status: int, text: string, parsed: Option<Json>)
    requires !IsOk(status)
    ensures Finish(Answered(status, text, parsed)) == Response(500, UpstreamFailure(UpstreamErrorCode, status, text))
  {}

  /** A 2xx status with a body that is not JSON is reported with the raw text. */
  lemma ParseErrorRaw(status: int, text: string)
    requires IsOk(status)
    ensures Finish(Answered(status, text, None)) == Response(500, ParseFailure(ParseErrorCode, text))
  {}

  // ---------------------------------------------------------------------------
  // Reply extraction

  /** An array whose first element has a non-empty string `generated_text`
      yields that text trimmed, whatever else the array holds. */
  lemma ExtractArrayFirst(members: seq<(string, Json)>, rest: seq<Json>, s: string)
    requires Lookup(members, "generated_text") == Some(JString(s)) && s != ""
    ensures Extract(JArray([JObject(members)] + rest)) == Success(Trim(s))
  {}

  /** A bare string yields itself trimmed. */
  lemma ExtractBareString(s: string)
    ensures Extract(JString(s)) == Success(Trim(s))
  {}

  /** An object with a non-empty string `generated_text` yields that text trimmed. */
  lemma ExtractObject(members: seq<(string, Json)>, s: string)
    requires Lookup(members, "generated_text") == Some(JString(s)) && s != ""
    ensures Extract(JObject(members)) == Success(Trim(s))
  {}

  /** The body is serialised exactly when its shape is unrecognised: a
      recognised shape yields a shorter text or throws. */
  lemma ExtractSerialises(data: Json)
    ensures Extract(data) == Success(Stringify(data)) <==> Unrecognised(data)
  {}

  /** A falsy `generated_text` in the first array element (empty string, null,
      false, 0 or absent) is passed over: the whole array is serialised. */
  lemma FalsyGeneratedTextFallsThrough(members: seq<(string, Json)>, rest: seq<Json>)
    requires !Truthy(Lookup(members, "generated_text"))
    ensures Extract(JArray([JObject(members)] + rest)) == Success(Stringify(JArray([JObject(members)] + rest)))
  {}

  /** A truthy `generated_text` that is not a string makes `trim` throw, which
      the handler reports as a server error. */
  lemma NonStringGeneratedTextThrows(status: int, text: string, members: seq<(string, Json)>,
                                     rest: seq<Json>, v: Json)
    requires IsOk(status)
    requires Lookup(members, "generated_text") == Some(v) && Truthy(Some(v)) && !v.JString?
    ensures Finish(Answered(status, text, Some(JArray([JObject(members)] + rest))))
            == Response(500, ServerFailure(ServerErrorCode, ArrayTrimError))
    ensures Finish(Answered(status, text, Some(JObject(members))))
            == Response(500, ServerFailure(ServerErrorCode, ObjectTrimError))
  {}

  /** A reply text that is empty or all whitespace, in any of the string
      shapes, is answered with the fixed fallback. */
  lemma BlankTextBecomesFallback(status: int, text: string, members: seq<(string, Json)>,
                                 rest: seq<Json>, s: string)
    requires IsOk(status) && AllTrimmable(s)
    ensures Finish(Answered(status, text, Some(JString(s)))) == Response(200, ReplyBody(FallbackReply))
    ensures s != "" && Lookup(members, "generated_text") == Some(JString(s)) ==>
              && Finish(Answered(status, text, Some(JArray([JObject(members)] + rest))))
                 == Response(200, ReplyBody(FallbackReply))
              && Finish(Answered(status, text, Some(JObject(members))))
                 == Response(200, ReplyBody(FallbackReply))
  {
    TrimEmptyIffBlank(s);
  }

  /** A 200 reply is the fallback, a serialisation of the parsed body, or a
      non-empty trimmed text. */
  lemma OkReplyShape(status: int, text: string, data: Json)
    requires Finish(Answered(status, text, Some(data))).status == 200
    ensures var r := Finish(Answered(status, text, Some(data))).payload.reply;
            r == FallbackReply || r == Stringify(data) || (r != "" && IsTrimmed(r))
  {}
}

=== FILE: http.dfy ===
/** What a handler receives and what it answers: the inbound request, the
    environment, the calls it makes upstream and the replies it gets back. */
module Http {
  import opened Wrappers
  import opened Json

  /** The environment variables the handlers read; `None` is an unset variable. */
  datatype Env = Env(hfToken: Option<string>, hfModel: Option<string>)

  /** An inbound request: its method, the `ping` query parameter and the body
      as the hosting platform parsed it (`None` when there is no body). */
  datatype Request = Request(httpMethod: string, ping: Option<string>, body: Option<Json>)

  /** The body's `message` member: `(req.body || {}).message` in one handler,
      `req.body.message` in the other; only an object body has one. */
  function MessageOf(body: Option<Json>): (m: Option<Json>)
    ensures m.Some? ==> body.Some? && body.value.JObject?
    ensures body.Some? && body.value.JObject? ==> m == Lookup(body.value.members, "message")
  {
    Prop(body, "message")
  }

  /** One upstream inference call: the model addressed, the `Authorization`
      header and the `inputs` text of the payload. */
  datatype UpstreamCall = UpstreamCall(model: string, authorization: string, inputs: string)

  /** The result of one upstream call. `Answered` carries the status, the raw
      body text and what `JSON.parse` makes of that text (`None` when it
      throws); `Rejected` is a `fetch` or body read that threw, with the
      error's `message` and its `String(err)` form. */
  datatype UpstreamReply =
    | Answered(status: int, text: string, parsed: Option<Json>)
    | Rejected(message: string, asString: string)

  /** `resp.ok`: a status in the 2xx range, that is, a status whose first
      digit is the success class 2 (section 15 of RFC 9110). */
  function IsOk(status: int): (ok: bool)
    ensures ok <==> status / 100 == 2
  {
    200 <= status <= 299
  }

  /** `err.message || String(err)`: one of the two texts, the message unless
      it is empty, and empty only when both are. */
  function ErrorText(message: string, asString: string): (t: string)
    ensures t == message || t == asString
    ensures message != "" ==> t == message
    ensures t == "" <==> message == "" && asString == ""
  {
    if message != "" then message else asString
  }

  /** The JSON body of a response. */
  datatype Payload =
    | Health(ok: bool, route: string, model: string, hfTokenPresent: bool, tip: string)
    | ReplyBody(reply: string)
    | ErrorOnly(error: string)
    | UpstreamFailure(error: string, upstreamStatus: int, details: string)
    | ParseFailure(error: string, raw: string)
    | ServerFailure(error: string, message: string)

  datatype Response = Response(status: int, payload: Payload)

  /** What one invocation does: the response it sends and the upstream calls
      it made, in order. `Threw` is an exception that escapes the handler: it
      sends no response of its own and made the calls listed. */
  datatype Outcome =
    | Responded(response: Response, calls: seq<UpstreamCall>)
    | Threw(error: string, calls: seq<UpstreamCall>)

  /** The handler itself answered with this status. */
  predicate HasStatus(o: Outcome, status: int)
  {
    o.Responded? && o.response.status == status
  }
}

=== FILE: js_string.dfy ===
/** The two JavaScript string operations the handlers rely on:
    `String.prototype.trim` and the speaker-prefix removal
    `s.replace(/^.*?：/, "")`. */
module JsString {
  import opened Wrappers

  /** ECMAScript LineTerminator: the characters the regular-expression `.`
      does not match. */
  predicate IsLineTerminator(c: char)
  {
    c == '\n' || c == '\r' || c == '\U{2028}' || c == '\U{2029}'
  }

  /** ECMAScript WhiteSpace or LineTerminator: what `trim` removes. WhiteSpace is
      TAB, VT, FF, ZWNBSP and the space separators (category Zs). */
  predicate IsTrimmable(c: char)
  {
    || IsLineTerminator(c)
    || c == '\t' || c == '\U{B}' || c == '\U{C}' || c == '\U{FEFF}'
    || c == ' ' || c == '\U{A0}' || c == '\U{1680}'
    || ('\U{2000}' <= c <= '\U{200A}')
    || c == '\U{202F}' || c == '\U{205F}' || c == '\U{3000}'
  }

  /** Every character of `s` is removed by `trim`. */
  predicate AllTrimmable(s: string)
  {
    forall i :: 0 <= i < |s| ==> IsTrimmable(s[i])
  }

  /** `s` is the result of some `trim`: empty, or starting and ending with a
      character `trim` keeps. */
  predicate IsTrimmed(s: string)
  {
    |s| == 0 || (!IsTrimmable(s[0]) && !IsTrimmable(s[|s| - 1]))
  }

  /** `s[a..b]` is what `trim` keeps of `s`: everything before `a` and from `b`
      on is trimmable, and a non-empty middle starts and ends with a kept
      character. */
  predicate TrimSplit(s: string, a: int, b: int)
  {
    && 0 <= a <= b <= |s|
    && (forall i :: 0 <= i < a ==> IsTrimmable(s[i]))
    && (forall i :: b <= i < |s| ==> IsTrimmable(s[i]))
    && (a < b ==> !IsTrimmable(s[a]) && !IsTrimmable(s[b - 1]))
  }

  /** The index of the first kept character at or after `i`, or `|s|`. */
  function FirstKept(s: string, i: nat): (a: nat)
    requires i <= |s|
    ensures i <= a <= |s|
    ensures forall j :: i <= j < a ==> IsTrimmable(s[j])
    ensures a < |s| ==> !IsTrimmable(s[a])
    decreases |s| - i
  {
    if i < |s| && IsTrimmable(s[i]) then FirstKept(s, i + 1) else i
  }

  /** The index just after the last kept character before `b`, but not below `lo`. */
  function EndKept(s: string, lo: nat, b: nat): (e: nat)
    requires lo <= b <= |s|
    ensures lo <= e <= b
    ensures forall j :: e <= j < b ==> IsTrimmable(s[j])
    ensures lo < e ==> !IsTrimmable(s[e - 1])
    decreases b
  {
    if lo < b && IsTrimmable(s[b - 1]) then EndKept(s, lo, b - 1) else b
  }

  /** `s.trim()`: the middle of the one split of `s` into a trimmable prefix,
      a trimmed middle and a trimmable suffix. */
  function Trim(s: string): (r: string)
    ensures IsTrimmed(r)
    ensures |r| <= |s|
    ensures exists a, b :: TrimSplit(s, a, b) && r == s[a..b]
  {
    var a := FirstKept(s, 0);
    var b := EndKept(s, a, |s|);
    assert TrimSplit(s, a, b);
    s[a..b]
  }

  /** `trim` yields the empty string exactly when every character is trimmable. */
  lemma TrimEmptyIffBlank(s: string)
    ensures Trim(s) == [] <==> AllTrimmable(s)
  {
    var r := Trim(s);
    var a: int, b: int :| TrimSplit(s, a, b) && r == s[a..b];
    if r == [] {
      forall i | 0 <= i < |s| ensures IsTrimmable(s[i]) {
        if i < a { } else { }
      }
    }
  }

  /** The trim of `s` is determined by any split of `s` into a trimmable
      prefix, a trimmed middle and a trimmable suffix. */
  lemma TrimUnique(s: string, a: int, b: int)
    requires TrimSplit(s, a, b)
    ensures Trim(s) == s[a..b]
  {
    var r := Trim(s);
    var a': int, b': int :| TrimSplit(s, a', b') && r == s[a'..b'];
    if a < b && a' < b' {
      assert a == a' && b == b';
    }
  }

  /** Trimming twice is trimming once. */
  lemma TrimIdempotent(s: string)
    ensures Trim(Trim(s)) == Trim(s)
  {
    var r := Trim(s);
    TrimUnique(r, 0, |r|);
  }

  /** The fullwidth colon `：` (U+FF1A) that ends a speaker label. */
  const SpeakerColon: char := '\U{FF1A}'

  /** `^.*?：` can match the first `k` characters of `s`: they end with the
      colon and `.` matches each character before it. */
  predicate PrefixMatch(s: string, k: int)
  {
    1 <= k <= |s| && s[k - 1] == SpeakerColon
    && forall j :: 0 <= j < k - 1 ==> !IsLineTerminator(s[j])
  }

  /** The length of the match the lazy pattern `^.*?：` picks: the shortest
      prefix ending in a colon, provided no line terminator comes before it. */
  function SpeakerPrefixLength(s: string): (k: Option<nat>)
    ensures k.None? <==> forall n :: !PrefixMatch(s, n)
    ensures k.Some? ==> PrefixMatch(s, k.value)
                        && forall n :: PrefixMatch(s, n) ==> k.value <= n
  {
    if |s| == 0 then None
    else if s[0] == SpeakerColon then assert PrefixMatch(s, 1); Some(1)
    else if IsLineTerminator(s[0]) then None
    else
      var rest := SpeakerPrefixLength(s[1..]);
      assert forall n :: PrefixMatch(s, n + 1) <==> PrefixMatch(s[1..], n) by {
        forall n ensures PrefixMatch(s, n + 1) <==> PrefixMatch(s[1..], n) {
          if PrefixMatch(s[1..], n) {
            assert forall j :: 0 <= j < n ==> !IsLineTerminator(s[j]) by {
              forall j | 0 <= j < n ensures !IsLineTerminator(s[j]) {
                if j > 0 { assert s[1..][j - 1] == s[j]; }
              }
            }
          }
          if PrefixMatch(s, n + 1) {
            assert forall j :: 0 <= j < n - 1 ==> !IsLineTerminator(s[1..][j]) by {
              forall j | 0 <= j < n - 1 ensures !IsLineTerminator(s[1..][j]) {
                assert s[1..][j] == s[j + 1];
              }
            }
          }
        }
      }
      assert !PrefixMatch(s, 1);
      assert forall n :: PrefixMatch(s, n) ==> PrefixMatch(s[1..], n - 1);
      match rest
      case None => None
      case Some(k) => Some(k + 1)
  }

  /** `s.replace(/^.*?：/, "")`: drop the lazily matched speaker label, or keep
      `s` when the pattern does not match. */
  function StripSpeaker(s: string): (r: string)
    ensures (forall n :: !PrefixMatch(s, n)) ==> r == s
    ensures forall k :: PrefixMatch(s, k) && (forall n :: PrefixMatch(s, n) ==> k <= n) ==> r == s[k..]
  {
    match SpeakerPrefixLength(s)
    case None => s
    case Some(k) => s[k..]
  }

  /** A string without the colon passes through the strip unchanged. */
  lemma NoColonNoStrip(s: string)
    requires forall i :: 0 <= i < |s| ==> s[i] != SpeakerColon
    ensures StripSpeaker(s) == s
  {}
}

=== FILE: json.dfy ===
/** JSON values as `JSON.parse` produces them, and the JavaScript operations the
    handlers apply to them: truthiness, property reads, `String(v)` and
    `JSON.stringify(v)`. */
module Json {
  import opened Wrappers

  /** A parsed JSON value. Numbers are integers (see README); an object keeps
      its members in the order the text lists them. */
  datatype Json =
    | JNull
    | JBool(b: bool)
    | JNumber(n: int)
    | JString(s: string)
    | JArray(items: seq<Json>)
    | JObject(members: seq<(string, Json)>)

  /** JavaScript truthiness of a value read from JSON; `None` is `undefined`.
      `null`, `false`, `0` and `""` are the falsy ones. */
  predicate Truthy(v: Option<Json>)
  {
    match v
    case None => false
    case Some(JNull) => false
    case Some(JBool(b)) => b
    case Some(JNumber(n)) => n != 0
    case Some(JString(s)) => s != ""
    case Some(_) => true
  }

  /** The value bound to `key` in an object's member list. When `JSON.parse`
      meets a key twice the later binding wins, so the LAST binding is read. */
  function Lookup(members: seq<(string, Json)>, key: string): (r: Option<Json>)
    ensures r.None? <==> forall i :: 0 <= i < |members| ==> members[i].0 != key
    ensures r.Some? ==> exists i :: 0 <= i < |members| && members[i] == (key, r.value)
                                    && forall j :: i < j < |members| ==> members[j].0 != key
  {
    if |members| == 0 then None
    else if members[|members| - 1].0 == key then Some(members[|members| - 1].1)
    else Lookup(members[..|members| - 1], key)
  }

  /** `v?.key` for the property names the handlers read ("message",
      "generated_text", "0"): only an object has such an own property. */
  function Prop(v: Option<Json>, key: string): Option<Json>
  {
    match v
    case Some(JObject(members)) => Lookup(members, key)
    case _ => None
  }

  /** `v?.[0]`: the first element of an array, the member "0" of an object,
      the first character of a string; `undefined` for everything else. */
  function Index0(v: Option<Json>): (r: Option<Json>)
    ensures v.Some? && v.value.JArray? ==>
              r == (if |v.value.items| == 0 then None else Some(v.value.items[0]))
  {
    match v
    case Some(JArray(items)) => if |items| == 0 then None else Some(items[0])
    case Some(JObject(members)) => Lookup(members, "0")
    case Some(JString(s)) => if |s| == 0 then None else Some(JString(s[..1]))
    case _ => None
  }

  /** The number a string of decimal digits denotes. */
  function DigitsValue(digits: string): nat
  {
    if |digits| == 0 then 0
    else
      var last := digits[|digits| - 1];
      DigitsValue(digits[..|digits| - 1]) * 10 + (if '0' <= last <= '9' then (last - '0') as nat else 0)
  }

  /** The shortest decimal digits of a natural number: they denote `n`, and
      only zero itself starts with a zero digit. */
  function NatToDecimal(n: nat): (r: string)
    ensures |r| > 0
    ensures forall i :: 0 <= i < |r| ==> '0' <= r[i] <= '9'
    ensures DigitsValue(r) == n
    ensures r[0] == '0' ==> n == 0
    decreases n
  {
    var d := ['0' + (n % 10) as char];
    if n < 10 then d
    else
      var high := NatToDecimal(n / 10);
      assert (high + d)[..|high|] == high;
      high + d
  }

  /** The decimal text of an integer, with a leading "-" when negative. This is
      what JavaScript prints for magnitudes below 2^53. */
  function IntToDecimal(n: int): (r: string)
    ensures |r| > 0
    ensures r[0] == '-' <==> n < 0
    ensures n >= 0 ==> DigitsValue(r) == n
    ensures n < 0 ==> DigitsValue(r[1..]) == -n
  {
    if n < 0 then
      var digits := NatToDecimal(-n);
      assert ("-" + digits)[1..] == digits;
      "-" + digits
    else NatToDecimal(n)
  }

  /** Join a list of strings with a separator, as `Array.prototype.join` does. */
  function JoinWith(parts: seq<string>, sep: string): (r: string)
    ensures |parts| == 0 ==> r == ""
    ensures |parts| == 1 ==> r == parts[0]
  {
    if |parts| == 0 then ""
    else if |parts| == 1 then parts[0]
    else JoinWith(parts[..|parts| - 1], sep) + sep + parts[|parts| - 1]
  }

  /** The lower-case hexadecimal digit of a value below 16. */
  function HexDigit(d: nat): char
    requires d < 16
  {
    if d < 10 then '0' + d as char else 'a' + (d - 10) as char
  }

  /** The escape `JSON.stringify` writes for one character of a string. */
  function EscapeChar(c: char): (r: string)
    ensures |r| > 0
  {
    if c == '"' then "\\\""
    else if c == '\\' then "\\\\"
    else if c == '\U{8}' then "\\b"
    else if c == '\U{C}' then "\\f"
    else if c == '\n' then "\\n"
    else if c == '\r' then "\\r"
    else if c == '\t' then "\\t"
    else if (c as int) < 0x20 then "\\u00" + [HexDigit((c as int) / 16), HexDigit((c as int) % 16)]
    else [c]
  }

  /** A string as a JSON string literal. */
  function Quote(s: string): (r: string)
    ensures |r| >= 2 && r[0] == '"' && r[|r| - 1] == '"'
  {
    "\"" + EscapeAll(s) + "\""
  }

  function EscapeAll(s: string): string
  {
    if |s| == 0 then "" else EscapeChar(s[0]) + EscapeAll(s[1..])
  }

  /** Escaping never shortens a string. */
  lemma {:induction false} EscapeAllLonger(s: string)
    ensures |EscapeAll(s)| >= |s|
  {
    if |s| > 0 {
      EscapeAllLonger(s[1..]);
    }
  }

  /** A joined list is at least as long as each of its parts. */
  lemma {:induction false} JoinWithLonger(parts: seq<string>, sep: string, k: nat)
    requires k < |parts|
    ensures |JoinWith(parts, sep)| >= |parts[k]|
    decreases |parts|
  {
    if |parts| > 1 && k < |parts| - 1 {
      JoinWithLonger(parts[..|parts| - 1], sep, k);
    }
  }

  /** `JSON.stringify(v)` for a value that came out of `JSON.parse`: it never
      throws and never yields the empty string. */
  function Stringify(v: Json): (r: string)
    ensures |r| > 0
  {
    match v
    case JNull => "null"
    case JBool(b) => if b then "true" else "false"
    case JNumber(n) => IntToDecimal(n)
    case JString(s) => Quote(s)
    case JArray(items) =>
      "[" + JoinWith(seq(|items|, i requires 0 <= i < |items| => Stringify(items[i])), ",") + "]"
    case JObject(members) =>
      "{" + JoinWith(seq(|members|, i requires 0 <= i < |members| =>
                           Quote(members[i].0) + ":" + Stringify(members[i].1)), ",") + "}"
  }

  /** The serialisation of a string is longer than the string: quotes are added. */
  lemma StringifyStringLonger(s: string)
    ensures |Stringify(JString(s))| >= |s| + 2
  {
    EscapeAllLonger(s);
  }

  /** The serialisation of an array is longer than that of any of its items. */
  lemma StringifyArrayLonger(items: seq<Json>, k: nat)
    requires k < |items|
    ensures |Stringify(JArray(items))| >= |Stringify(items[k])| + 2
  {
    var parts := seq(|items|, i requires 0 <= i < |items| => Stringify(items[i]));
    JoinWithLonger(parts, ",", k);
  }

  /** The serialisation of an object is longer than that of any member's value,
      duplicates included: every member is printed. */
  lemma StringifyMemberLonger(members: seq<(string, Json)>, i: nat)
    requires i < |members|
    ensures |Stringify(JObject(members))| >= |Stringify(members[i].1)| + 2
  {
    var parts := seq(|members|, k requires 0 <= k < |members| =>
                       Quote(members[k].0) + ":" + Stringify(members[k].1));
    assert parts[i] == Quote(members[i].0) + ":" + Stringify(members[i].1);
    JoinWithLonger(parts, ",", i);
  }

  /** In particular it is longer than the value the object binds to a key. */
  lemma StringifyObjectLonger(members: seq<(string, Json)>, key: string, v: Json)
    requires Lookup(members, key) == Some(v)
    ensures |Stringify(JObject(members))| >= |Stringify(v)| + 2
  {
    var i :| 0 <= i < |members| && members[i] == (key, v)
             && forall j :: i < j < |members| ==> members[j].0 != key;
    StringifyMemberLonger(members, i);
  }

  /** The TypeError of converting an object that has its own `toString`
      member: a member parsed from JSON is never callable, so `toString` is
      skipped, and the inherited `valueOf` returns the object itself. */
  const ToPrimitiveError: string := "Cannot convert object to primitive value"

  /** `String(v)` does not throw: no object in `v`, at the top or inside
      arrays, has its own `toString` member. */
  predicate Printable(v: Json)
  {
    match v
    case JArray(items) => forall i :: 0 <= i < |items| ==> Printable(items[i])
    case JObject(members) => Lookup(members, "toString").None?
    case _ => true
  }

  /** All the results, or the first failure among them. */
  function CollectAll(parts: seq<Result<string, string>>): (r: Result<seq<string>, string>)
    ensures r.Success? <==> forall i :: 0 <= i < |parts| ==> parts[i].Success?
    ensures r.Success? ==> |r.value| == |parts|
                           && forall i :: 0 <= i < |parts| ==> parts[i] == Success(r.value[i])
    ensures r.Failure? ==> exists i :: 0 <= i < |parts| && parts[i] == Failure(r.error)
  {
    if |parts| == 0 then Success([])
    else
      match parts[0]
      case Failure(e) => Failure(e)
      case Success(first) =>
        match CollectAll(parts[1..])
        case Failure(e) => Failure(e)
        case Success(rest) => Success([first] + rest)
  }

  /** `String(v)`, which is what a template literal `${v}` inserts: arrays join
      their elements with "," (null elements as ""), objects become
      "[object Object]"; an object with its own `toString` member throws. */
  function ToDisplayString(v: Json): (r: Result<string, string>)
    ensures r.Success? <==> Printable(v)
    ensures r.Failure? ==> r.error == ToPrimitiveError
    ensures v.JString? ==> r == Success(v.s)
  {
    match v
    case JNull => Success("null")
    case JBool(b) => Success(if b then "true" else "false")
    case JNumber(n) => Success(IntToDecimal(n))
    case JString(s) => Success(s)
    case JArray(items) =>
      var parts := seq(|items|, i requires 0 <= i < |items| =>
                         if items[i].JNull? then Success("") else ToDisplayString(items[i]));
      assert forall i :: 0 <= i < |items| ==> (parts[i].Success? <==> Printable(items[i]));
      (match CollectAll(parts)
       case Success(texts) => Success(JoinWith(texts, ","))
       case Failure(e) => Failure(e))
    case JObject(members) =>
      if Lookup(members, "toString").Some? then Failure(ToPrimitiveError) else Success("[object Object]")
  }
}

=== FILE: legacy_chat.dfy ===
/** The handler of the older `chat.js`: no health check and no token check,
    one upstream call whose status is never inspected, a reply read from
    `[0].generated_text` or `.generated_text` with a fixed fallback, a speaker
    label stripped, and every thrown error collapsed into one message. */
module LegacyChat {
  import opened Wrappers
  import opened Json
  import opened JsString
  import opened Http
  import ApiChat

  const Model: string := "shenzhi-wang/Llama3.1-8B-Chinese-Chat"
  const FallbackReply: string := "🌙 我听懂了，也许你需要一点时间放松。"
  const MethodNotAllowedError: string := "Method Not Allowed"
  const MissingMessageError: string := "Missing input message"
  /** The one error message of the catch-all. */
  const FailureMessage: string := "AI 模型暂时无法响应，请稍后再试 🌙"

  /** `Bearer ${process.env.HF_TOKEN}`: an unset token prints as "undefined". */
  function Authorization(env: Env): (h: string)
    ensures env.hfToken.Some? ==> h == "Bearer " + env.hfToken.value
    ensures env.hfToken.None? ==> h == "Bearer undefined"
  {
    "Bearer " + match env.hfToken
                case Some(t) => t
                case None => "undefined"
  }

  /** How lines 7-10 judge the body. */
  datatype Validation =
    | Accepted(message: string)   // a string with a non-whitespace character
    | Blank                       // the 400 answer
    | Thrown                      // destructuring or `trim` threw

  /** `const { message } = req.body; if (!message || message.trim() === "")`. */
  function Validate(body: Option<Json>): (v: Validation)
    ensures v.Accepted? ==> MessageOf(body) == Some(JString(v.message)) && !AllTrimmable(v.message)
  {
    if body.None? || body == Some(JNull) then Thrown
    else
      var message := MessageOf(body);
      if !Truthy(message) then Blank
      else
        match message.value
        case JString(s) => TrimEmptyIffBlank(s); if Trim(s) == "" then Blank else Accepted(s)
        case _ => Thrown
  }

  /** Lines 31-34: `data?.[0]?.generated_text || data?.generated_text || FALLBACK`. */
  function ReplySource(data: Json): (v: Json)
    ensures Truthy(Some(v))
  {
    var first := Prop(Index0(Some(data)), "generated_text");
    var own := Prop(Some(data), "generated_text");
    if Truthy(first) then first.value
    else if Truthy(own) then own.value
    else JString(FallbackReply)
  }

  /** Line 36: `reply.replace(/^.*?：/, "").trim()`. */
  function Clean(s: string): (r: string)
    ensures IsTrimmed(r)
  {
    Trim(StripSpeaker(s))
  }

  /** Lines 29-42: the response for the one upstream reply; its status is
      never looked at. */
  function Finish(reply: UpstreamReply): (r: Response)
    ensures r.status == 200 || r.status == 500
    ensures r.status == 500 <==> r.payload == ErrorOnly(FailureMessage)
    ensures r.status == 200 ==> r.payload.ReplyBody? && IsTrimmed(r.payload.reply)
  {
    match reply
    case Rejected(_, _) => Response(500, ErrorOnly(FailureMessage))
    case Answered(_, _, parsed) =>
      if parsed.None? then Response(500, ErrorOnly(FailureMessage))
      else
        match ReplySource(parsed.value)
        case JString(s) => Response(200, ReplyBody(Clean(s)))
        case _ => Response(500, ErrorOnly(FailureMessage))
  }

  /** A parsed reply whose reply source is a string answers 200 with that
      string cleaned, whatever the status. */
  lemma LegacyOkReply(status: int, text: string, data: Json, s: string)
    requires ReplySource(data) == JString(s)
    ensures Finish(Answered(status, text, Some(data))) == Response(200, ReplyBody(Clean(s)))
  {}

  /** The whole handler. `replies[0]` answers its one upstream call. */
  function Handle(req: Request, env: Env, replies: seq<UpstreamReply>): (o: Outcome)
    requires |replies| >= 1
    ensures o.Responded?
    ensures |o.calls| <= 1
    ensures o.response.status in {200, 400, 405, 500}
    ensures |o.calls| == 1 <==> req.httpMethod == "POST" && Validate(req.body).Accepted?
  {
    if req.httpMethod != "POST" then
      Responded(Response(405, ErrorOnly(MethodNotAllowedError)), [])
    else
      match Validate(req.body)
      case Thrown => Responded(Response(500, ErrorOnly(FailureMessage)), [])
      case Blank => Responded(Response(400, ErrorOnly(MissingMessageError)), [])
      case Accepted(message) =>
        Responded(Finish(replies[0]), [UpstreamCall(Model, Authorization(env), message)])
  }

  // ---------------------------------------------------------------------------
  // Dispatch

  /** Every method but POST is answered 405 without an upstream call; a GET
      with `ping` is not special here. */
  lemma OnlyPost(req: Request, env: Env, replies: seq<UpstreamReply>)
    requires |replies| >= 1
    ensures var o := Handle(req, env, replies);
            && (o.response.status == 405 <==> req.httpMethod != "POST")
            && (o.response.status == 405 ==> o.calls == [])
  {}

  /** 400 is the answer exactly to a POST with a body whose message is
      missing, empty or whitespace only. */
  lemma BlankMessageRejected(req: Request, env: Env, replies: seq<UpstreamReply>)
    requires |replies| >= 1
    ensures var o := Handle(req, env, replies);
            o.response.status == 400 <==>
              && req.httpMethod == "POST"
              && req.body.Some? && req.body != Some(JNull)
              && (!Truthy(MessageOf(req.body))
                  || (MessageOf(req.body).value.JString? && AllTrimmable(MessageOf(req.body).value.s)))
  {
    var m := MessageOf(req.body);
    if m.Some? && m.value.JString? {
      TrimEmptyIffBlank(m.value.s);
    }
  }

  /** The accepted message is sent upstream unchanged as the model input. */
  lemma MessageForwarded(req: Request, env: Env, replies: seq<UpstreamReply>)
    requires |replies| >= 1
    requires req.httpMethod == "POST" && Validate(req.body).Accepted?
    ensures Handle(req, env, replies).calls
            == [UpstreamCall(Model, Authorization(env), MessageOf(req.body).value.s)]
  {}

  // ---------------------------------------------------------------------------
  // Reply source and cleaning

  /** An array whose first item is an object with a truthy `generated_text`
      replies with that value, whatever else the array holds. */
  lemma ReplyFromArray(members: seq<(string, Json)>, rest: seq<Json>)
    requires Truthy(Lookup(members, "generated_text"))
    ensures ReplySource(JArray([JObject(members)] + rest)) == Lookup(members, "generated_text").value
  {}

  /** A member "0" that is an object with a truthy `generated_text` is read
      first, whatever the object's own `generated_text` is; otherwise the
      object replies with its own truthy `generated_text`. */
  lemma ReplyFromObject(members: seq<(string, Json)>)
    ensures Truthy(Lookup(members, "generated_text"))
            && (forall inner :: Lookup(members, "0") == Some(JObject(inner)) ==>
                                  !Truthy(Lookup(inner, "generated_text")))
            ==> ReplySource(JObject(members)) == Lookup(members, "generated_text").value
    ensures forall inner :: Lookup(members, "0") == Some(JObject(inner))
                            && Truthy(Lookup(inner, "generated_text")) ==>
                              ReplySource(JObject(members)) == Lookup(inner, "generated_text").value
  {}

  /** Null, booleans, numbers, strings, an empty array, and an array whose
      first item is not an object with a truthy `generated_text` all reply with
      the fallback. */
  lemma ReplyFallbackShapes(data: Json)
    requires || data.JNull? || data.JBool? || data.JNumber? || data.JString?
             || (data.JArray? && (|data.items| == 0
                                  || !(data.items[0].JObject?
                                       && Truthy(Lookup(data.items[0].members, "generated_text")))))
    ensures ReplySource(data) == JString(FallbackReply)
  {}

  /** A trimmed text without a speaker colon is left as it is by cleaning. */
  lemma CleanKeepsPlainText(s: string)
    requires forall i :: 0 <= i < |s| ==> s[i] != SpeakerColon
    requires IsTrimmed(s)
    ensures Clean(s) == s
  {
    NoColonNoStrip(s);
    TrimUnique(s, 0, |s|);
  }

  /** The fallback has no speaker colon and no surrounding whitespace, so
      cleaning leaves it as it is. */
  lemma FallbackSurvivesClean()
    ensures Clean(FallbackReply) == FallbackReply
  {
    CleanKeepsPlainText(FallbackReply);
  }

  /** The upstream status is never inspected: replies that differ only in
      status and raw text give the same outcome. */
  lemma StatusIgnored(req: Request, env: Env, status: int, other: int, text: string, otherText: string,
                      parsed: Option<Json>)
    ensures Handle(req, env, [Answered(status, text, parsed)])
            == Handle(req, env, [Answered(other, otherText, parsed)])
  {}

  /** An error object from upstream that has no `generated_text` (for example
      a 503 body) is answered 200 with the fallback reply. */
  lemma ErrorObjectGivesFallback(status: int, text: string, members: seq<(string, Json)>)
    requires !Truthy(Lookup(members, "generated_text"))
    requires !Truthy(Prop(Lookup(members, "0"), "generated_text"))
    ensures Finish(Answered(status, text, Some(JObject(members)))) == Response(200, ReplyBody(FallbackReply))
  {
    assert ReplySource(JObject(members)) == JString(FallbackReply);
    FallbackSurvivesClean();
  }

  /** Unlike `ApiChat`, a 200 reply can be empty: a generated text that is
      only a speaker label is stripped to nothing. */
  lemma EmptyReplyPossible(status: int, text: string)
    ensures Finish(Answered(status, text, Some(JArray([JObject([("generated_text", JString("夜空AI："))])]))))
            == Response(200, ReplyBody(""))
  {
    var s := "夜空AI：";
    assert PrefixMatch(s, 5);
    assert forall n :: PrefixMatch(s, n) ==> 5 <= n;
    assert StripSpeaker(s) == "";
  }

  /** Any thrown error is answered 500 with the one fixed message and no
      reply; its sources are a missing or null body, a truthy non-string
      message, a rejected call, a body that is not JSON, and a non-string
      reply. */
  lemma FailuresAreOpaque(req: Request, env: Env, replies: seq<UpstreamReply>)
    requires |replies| >= 1
    ensures var o := Handle(req, env, replies);
            && (o.response.status == 500 ==> o.response.payload == ErrorOnly(FailureMessage))
            && (o.response.status == 500 <==>
                  && req.httpMethod == "POST"
                  && (|| Validate(req.body).Thrown?
                      || (&& Validate(req.body).Accepted?
                          && (|| replies[0].Rejected?
                              || replies[0].parsed.None?
                              || !ReplySource(replies[0].parsed.value).JString?))))
  {}

  /** Validation throws exactly for a missing or null body and for a truthy
      message that is not a string. */
  lemma ThrowingBodies(body: Option<Json>)
    ensures Validate(body).Thrown? <==>
              body.None? || body == Some(JNull)
              || (Truthy(MessageOf(body)) && !MessageOf(body).value.JString?)
  {}

  /** The newer handler forwards any whitespace-only message, which this one
      rejects with 400. */
  lemma WhitespaceMessageContrast(members: seq<(string, Json)>, s: string,
                                  env: Env, replies: seq<UpstreamReply>)
    requires s != "" && AllTrimmable(s)
    requires Lookup(members, "message") == Some(JString(s))
    requires |replies| >= 2 && ApiChat.TokenPresent(env)
    ensures var req := Request("POST", None, Some(JObject(members)));
            && Handle(req, env, replies).response.status == 400
            && |ApiChat.Handle(req, env, replies).calls| >= 1
  {
    var req := Request("POST", None, Some(JObject(members)));
    BlankMessageRejected(req, env, replies);
    ApiChat.RetryRule(req, env, replies);
  }
}

=== FILE: retry.dfy ===
/** A bounded retry policy: call, and call again while the reply has a
    retryable status and attempts remain. */
module Retry {
  import opened Http

  /** How a run of the policy ended: the number of calls made and the reply to
      the last of them. */
  datatype Attempt = Attempt(calls: nat, last: UpstreamReply)

  /** The reply asks for another attempt under `retryable`. */
  predicate AsksRetry(reply: UpstreamReply, retryable: int -> bool)
  {
    reply.Answered? && retryable(reply.status)
  }

  /** Run the policy with at most `budget` calls; call number `k` receives
      `replies[k]`. It stops at the first reply that does not ask for a retry,
      or when the budget is spent. */
  function RunPolicy(replies: seq<UpstreamReply>, budget: nat, retryable: int -> bool): (a: Attempt)
    requires 1 <= budget <= |replies|
    ensures 1 <= a.calls <= budget
    ensures a.last == replies[a.calls - 1]
    ensures forall k :: 0 <= k < a.calls - 1 ==> AsksRetry(replies[k], retryable)
    ensures a.calls < budget ==> !AsksRetry(a.last, retryable)
    decreases budget
  {
    if budget > 1 && AsksRetry(replies[0], retryable) then
      var rest := RunPolicy(replies[1..], budget - 1, retryable);
      Attempt(rest.calls + 1, rest.last)
    else
      Attempt(1, replies[0])
  }

  /** The stopping rule determines the run: any count that meets the contract
      of `RunPolicy` is the count it makes. */
  lemma {:induction false} RunPolicyUnique(replies: seq<UpstreamReply>, budget: nat,
                                           retryable: int -> bool, n: nat)
    requires 1 <= n <= budget <= |replies|
    requires forall k :: 0 <= k < n - 1 ==> AsksRetry(replies[k], retryable)
    requires n < budget ==> !AsksRetry(replies[n - 1], retryable)
    ensures RunPolicy(replies, budget, retryable) == Attempt(n, replies[n - 1])
  {
    var a := RunPolicy(replies, budget, retryable);
    assert a.calls == n;
  }
}

=== FILE: wrappers.dfy ===
/** Option and Result, shared by the rest of the model. */
module Wrappers {

  /** An optional value; `None` stands for JavaScript's `undefined`. */
  datatype Option<+T> = None | Some(value: T)

  /** The outcome of a step that may throw: `Failure` carries the error message. */
  datatype Result<+R, +E> = Success(value: R) | Failure(error: E)
}
